=== FILE: README.md ===
# aoc-macro harness model

A Dafny model of `generate_day!`, a procedural macro for Advent of Code
solutions. The macro checks its two integer literals, bakes them into the
generated program as `YEAR` and `DAY`, and emits a fixed run-time harness.
At run time the harness does four things:

- It obtains the puzzle input through three tiers, in order: a `test_file`
  override, the cache `./input.txt`, or an authenticated download that is
  then written to the cache.
- It reads the `part` environment variable to choose a solver.
- It parses the input once with the user's `parse`.
- It prints what `solve_part_one` or `solve_part_two` returns.

The model is functional. The environment and the filesystem are maps from
names to strings. The HTTP client is an oracle from request to response.
The `download_input` build feature is a boolean. Every resolution and run
reports the filesystem it leaves and how many requests it issued. Every
`panic!`/`expect` site the model can reach is a constructor of
`Results.Fatal`. Some sites have no constructor:

- The `expect`s at src/lib.rs:19-20 cannot fail after the count check.
- Reading an existing `./input.txt` (src/lib.rs:78) cannot fail in the
  model.
- Creating and writing the cache (src/lib.rs:82-84) cannot fail in the
  model.

`TestFileUnreadable` and `SessionCookieUnreadable` carry the path the
model tried. The source's messages do not name it: they append the
underlying I/O error instead. Likewise the count carried by
`WrongArgumentCount` is the model's addition; the source's message does not
name a count.

Modules, one per component:

- `Results`: fatal errors, `Result`, `Option`.
- `Os`: environment and filesystem maps.
- `Decimal`: decimal text of a `u32`.
- `Generator`: the macro's argument check and the input address.
- `Mode`: `Part::from_env`.
- `Session`: `read_session_cookie` and `trim_end`.
- `Download`: `download_input_data`, both builds.
- `Resolver`: `download_or_read_input`.
- `Harness`: `handle_day`.

Modelling notes where the code decides:

- The macro binds the FIRST literal to `year` and the SECOND to `day`. The
  argument variable is called `day_year`, and the `expect` messages call
  the first value the day. The model follows the binding.
- Every literal is parsed before the argument count is checked. So when a
  list has the wrong length and also a literal that does not fit in `u32`,
  the failure is "Failed to parse number", not the count error.
- The mode is read after the input is resolved. The mode is also read
  before `parse` runs, because `parse` is called inside the arm that
  `Part::from_env()` selects. So a bad `part` ends the run after any
  download and cache write, but without calling `parse`. A design that
  parses first and reads the mode afterwards would call `parse` in that
  case too; the model follows the code.
- `trim_end` removes trailing characters with the Unicode White_Space
  property, which is what Rust's `char::is_whitespace` tests. It removes
  more than newlines and spaces.

## Model

| member | source | states |
|---|---|---|
| Generator.ParseAll | src/lib.rs:11-15 | Parsing the literals succeeds exactly when every literal fits in `u32`: it has no minus sign (so `-0` is refused) and its value is at most `u32::MAX`. It then returns their values in order. Otherwise the error is the number-parse failure. |
| Generator.Generate | src/lib.rs:11-20 | Generation succeeds exactly when there are two literals and both fit in `u32`, so neither carries a minus sign. The first literal's value becomes `year` and the second's `day`. An out-of-range literal takes precedence over a wrong count. Otherwise the error reports the count. |
| Generator.Url | src/lib.rs:111 | The address starts with `https://adventofcode.com/`. The digit run after it is the year's decimal text, and the rest reads back as the day. |
| Generator.NegativeZeroRefused | src/lib.rs:14 | A minus-signed zero is refused with the number-parse error, although its value 0 fits in `u32`. |
| Generator.DayPartRoundTrip | src/lib.rs:111 | The part of the address after the year, `/day/{DAY}/input`, reads back as the day. |
| Generator.UrlRoundTrip | src/lib.rs:111 | The download address encodes year and day, in that order. Both can be read back from it. |
| Generator.UrlDeterminesPuzzle | src/lib.rs:111 | Two programs share an address only when they have the same year and day. |
| Generator.GeneratedUrl | src/lib.rs:19-36 | For any two `u32` literals, generation succeeds. The program's address carries the first literal as the year and the second as the day. |
| Decimal.Show | src/lib.rs:111 | Formatting a number gives a non-empty string of digits. It never has a leading zero, except that 0 is formatted as the single digit "0". |
| Decimal.ValueOfShow | src/lib.rs:111 | Reading the formatted digits back gives the original number. |
| Decimal.ShowInjective | src/lib.rs:111 | Different numbers format differently. |
| Mode.FromEnv | src/lib.rs:45-53 | `part1` selects One and `part2` selects Two, in both directions. An unset `part` is the read failure. Any other value, including the empty string, fails with an error naming that value. |
| Mode.NameSelects | src/lib.rs:50-51 | Setting `part` to a mode's name selects that mode, whatever else is in the environment. |
| Mode.AcceptedValues | src/lib.rs:46-53 | Only the two names are accepted, and the selected mode's name is the value that was read. |
| Session.TrimEnd | src/lib.rs:98 | The result is a prefix of the input and does not end in whitespace. Everything removed is whitespace. |
| Session.TrimEndUnique | src/lib.rs:98 | Any prefix with those three properties equals the trimmed string, so they determine it. |
| Session.TrimEndIdempotent | src/lib.rs:98 | Trimming twice is the same as trimming once. |
| Session.TrimEndDropsNewline | src/lib.rs:98 | A credential followed by one newline reads back without it. |
| Session.CookiePath | src/lib.rs:90-93 | The credential path is the value of `SESSION_COOKIE_FILEPATH` if that is set, otherwise the fixed default path. |
| Session.ReadSessionCookie | src/lib.rs:89-99 | Reading the credential succeeds exactly when the file at that path exists. The value is a prefix of the file with no trailing whitespace, and only whitespace is cut. On failure the error carries the path that was tried; this path is the model's addition. |
| Download.RequestOf | src/lib.rs:109-115 | The request sent for the download has an address that reads back as the generated year and day. It carries the credential file's text with trailing whitespace trimmed. |
| Download.DownloadInputData | src/lib.rs:101-120 | The download issues at most one request. Without the feature it fails as disabled and issues none. With the feature, it sends a request exactly when the credential is readable; an unreadable credential is itself the failure. A text body becomes the result. A failed send fails with the retrieve error. An unreadable body fails with the response error. |
| Download.SucceedsOnBody | src/lib.rs:113-119 | A download succeeds exactly when the feature is on, the credential is readable and the client answers the request with a text body. That body is then the result. |
| Download.RequestNamesPuzzle | src/lib.rs:109-115 | Once a request is sent, the credential has been read. The request's address reads back as the generated year and day, in that order. It carries the credential file's text with trailing whitespace trimmed. |
| Resolver.DownloadOrReadInput | src/lib.rs:59-87 | At most one request is issued, and only when there is neither an override nor a cache file. On such a cache miss, the result and the request count are those of the download. The filesystem changes only on a successful download, and then only `./input.txt` changes, to the returned text. |
| Resolver.OverrideTier | src/lib.rs:61-71 | With `test_file` set, the result is that file's text. If the file is unreadable, the run fails rather than falling through to the next tier. No file is written and nothing is fetched. |
| Resolver.OverrideIgnoresCache | src/lib.rs:61-71 | Under an override naming a file other than `./input.txt`, adding, changing or removing `./input.txt` does not change the result or the number of requests. |
| Resolver.CacheHit | src/lib.rs:74-78 | Without an override, an existing `./input.txt` is returned, even if it is empty. Nothing is fetched and nothing is written. |
| Resolver.CacheMissDownloads | src/lib.rs:79-86 | On a cache miss with the feature and a readable credential, exactly one request is issued. The cache then holds exactly the fetched text, and that text is returned. |
| Resolver.SecondResolutionUsesCache | src/lib.rs:76-86 | After a successful resolution without an override, resolving again returns the same text. No request is issued and nothing is written, whatever the network and feature setting. |
| Resolver.CacheMissFails | src/lib.rs:79-84 | On a cache miss, a failed download is fatal with the download's own error, and the filesystem is unchanged. A request was issued exactly when the feature is on and the credential is readable. |
| Resolver.CacheMissDisabled | src/lib.rs:79-82 | On a cache miss without the feature, the run fails as disabled. The filesystem is unchanged and nothing is fetched. |
| Resolver.FailedDownloadWritesNothing | src/lib.rs:81-84 | A failed download leaves the filesystem unchanged, with no cache file. |
| Harness.HandleDay | src/lib.rs:122-130 | A run's file writes and requests are exactly those of input resolution, whatever the mode. A resolution failure ends the run. Otherwise a bad mode ends it. Otherwise the solver for the selected part runs on the parse of exactly the resolved input. |
| Harness.LateModeCheck | src/lib.rs:123-125 | An invalid or missing `part` is detected only after a cache-miss download. By then the request has been issued and the cache written. |
| Harness.NothingToRead | src/lib.rs:122-125 | With no override, no cache and no download feature, the run fails as disabled before anything is printed. The filesystem is unchanged. |
| Harness.OverrideRun | src/lib.rs:122-127 | With a readable override and `part1`, the run prints the first solver applied to the parse of the override file's text. Nothing is fetched or written. |

## Left out

- Token handling in the macro (`syn`/`quote!`, literal suffixes, non-decimal spellings). A literal is its minus sign and the magnitude of its digits. A list that does not parse as comma-separated integer literals is not modelled.
- The HTTP transport (`reqwest`, the `session=` cookie header) is an oracle from `Request` to a body, a send failure or an unreadable body.
- HTTP status is not checked, because the source never calls `error_for_status`. An error page sent with a 4xx or 5xx status, such as the reply to a stale credential, arrives as a `Body`. It is written to `./input.txt` like real input, and every later run reuses it (see `Resolver.SecondResolutionUsesCache`).
- Failures to create or write `./input.txt` after a download. Writes always succeed in the model, because permission and disk errors belong to the real filesystem. A partly written cache file is not modelled either.
- Filesystem and environment details are left out: path normalisation (`./input.txt` and `input.txt` are different keys), non-Unicode environment values, and a file that exists but is not readable text. A path is in the map exactly when it exists and reads as text.
- An `./input.txt` that exists but cannot be read makes the source panic with "Failed to read input file" (src/lib.rs:78). The model cannot express that state, because it treats such a file as absent. It would download and overwrite the file instead.
- The unlocked cache file can race between concurrent runs. The model is single-threaded.
- The diagnostic `println!`s before reading the override and before downloading are left out. The final print is modelled as the `printed` field of a run.
- The `#[bench]` test module is benchmarking code.
- The bodies of `parse`, `solve_part_one` and `solve_part_two` are the user's code. They are parameters of `Harness.HandleDay`.

=== FILE: decimal.dfy ===
/** Base-10 text of a natural number, as Rust's `{}` formats an unsigned
    integer: no sign, no leading zeros, "0" for zero. */
module Decimal {

  predicate IsDigit(c: char) {
    '0' <= c <= '9'
  }

  predicate AllDigits(s: string) {
    forall i :: 0 <= i < |s| ==> IsDigit(s[i])
  }

  function DigitValue(c: char): (d: nat)
    requires IsDigit(c)
    ensures d < 10
  {
    c as int - '0' as int
  }

  function DigitChar(d: nat): (c: char)
    requires d < 10
    ensures IsDigit(c) && DigitValue(c) == d
  {
    ('0' as int + d) as char
  }

  /** The decimal text of `n`. */
  function Show(n: nat): (s: string)
    ensures |s| > 0 && AllDigits(s)
    ensures s[0] == '0' ==> n == 0
    ensures |s| > 1 ==> s[0] != '0'
    decreases n
  {
    if n < 10 then [DigitChar(n)] else Show(n / 10) + [DigitChar(n % 10)]
  }

  /** The number a string of digits denotes (most significant digit first). */
  function Value(s: string): nat
    requires AllDigits(s)
  {
    if s == [] then 0 else 10 * Value(s[..|s| - 1]) + DigitValue(s[|s| - 1])
  }

  /** Reading back the decimal text yields the number. */
  lemma {:induction false} ValueOfShow(n: nat)
    ensures Value(Show(n)) == n
    decreases n
  {
    if n >= 10 {
      var s := Show(n);
      assert s[..|s| - 1] == Show(n / 10);
      ValueOfShow(n / 10);
    }
  }

  /** Different numbers have different decimal texts. */
  lemma ShowInjective(m: nat, n: nat)
    requires Show(m) == Show(n)
    ensures m == n
  {
    ValueOfShow(m);
    ValueOfShow(n);
  }
}

=== FILE: download.dfy ===
/** `download_input_data`, in both of its builds. Without the
    `download_input` feature it fails at once and touches nothing; with it,
    it reads the session credential and issues one GET for the puzzle's
    input address. The HTTP client is an oracle from request to response. */
module Download {
  import opened Results
  import opened Os
  import Generator
  import Session

  /** What the client is asked for: the address and the session credential it sends as a cookie. */
  datatype Request = Request(url: string, sessionCookie: string)

  /** What the client can answer: a text body, a failed send, or a body that is not text. */
  datatype Response = Body(text: string) | SendFailed | BodyUnreadable

  type Fetcher = Request -> Response

  /** The outcome of one download attempt and how many requests it issued. */
  datatype Attempt = Attempt(result: Result<string>, fetches: nat)

  /** The request the enabled build sends once the credential is read: the
      generated puzzle's address and the trimmed credential. */
  function RequestOf(prog: Generator.Program, env: Env, fs: Fs): (req: Request)
    requires Session.ReadSessionCookie(env, fs).Ok?
    ensures Generator.ParseUrl(req.url) == Some((prog.year as nat, prog.day as nat))
    ensures Session.CookiePath(env) in fs && req.sessionCookie == Session.TrimEnd(fs[Session.CookiePath(env)])
  {
    Generator.UrlRoundTrip(prog);
    Request(Generator.Url(prog), Session.ReadSessionCookie(env, fs).value)
  }

  function DownloadInputData(prog: Generator.Program, env: Env, fs: Fs, enabled: bool, fetch: Fetcher): (a: Attempt)
    ensures a.fetches <= 1
    // the build without the feature fails at once
    ensures !enabled ==> a == Attempt(Fail(DownloadDisabled), 0)
    // the credential is read before the network is touched
    ensures a.fetches == 1 <==> enabled && Session.ReadSessionCookie(env, fs).Ok?
    ensures enabled && Session.ReadSessionCookie(env, fs).Fail? ==>
              a.result == Session.ReadSessionCookie(env, fs)
    // each answer of the client has its own outcome
    ensures enabled && Session.ReadSessionCookie(env, fs).Ok? ==>
              match fetch(RequestOf(prog, env, fs))
              case Body(text) => a.result == Ok(text)
              case SendFailed => a.result == Fail(RetrieveFailed)
              case BodyUnreadable => a.result == Fail(ResponseUnreadable)
  {
    if !enabled then Attempt(Fail(DownloadDisabled), 0)
    else
      match Session.ReadSessionCookie(env, fs)
      case Fail(e) => Attempt(Fail(e), 0)
      case Ok(cookie) =>
        match fetch(Request(Generator.Url(prog), cookie))
        case Body(text) => Attempt(Ok(text), 1)
        case SendFailed => Attempt(Fail(RetrieveFailed), 1)
        case BodyUnreadable => Attempt(Fail(ResponseUnreadable), 1)
  }

  /** A download succeeds exactly when the client answers the request with a
      text body, and then the body is the input. */
  lemma SucceedsOnBody(prog: Generator.Program, env: Env, fs: Fs, enabled: bool, fetch: Fetcher)
    ensures DownloadInputData(prog, env, fs, enabled, fetch).result.Ok? <==>
              enabled && Session.ReadSessionCookie(env, fs).Ok? && fetch(RequestOf(prog, env, fs)).Body?
    ensures DownloadInputData(prog, env, fs, enabled, fetch).result.Ok? ==>
              fetch(RequestOf(prog, env, fs)) == Body(DownloadInputData(prog, env, fs, enabled, fetch).result.value)
  {
  }

  /** A request that is sent asks for the address of the generated year and
      day, in that order, and carries the credential file's text without its
      trailing whitespace. */
  lemma RequestNamesPuzzle(prog: Generator.Program, env: Env, fs: Fs, fetch: Fetcher)
    requires DownloadInputData(prog, env, fs, true, fetch).fetches == 1
    ensures Session.ReadSessionCookie(env, fs).Ok?
    ensures Generator.ParseUrl(RequestOf(prog, env, fs).url) == Some((prog.year as nat, prog.day as nat))
    ensures Session.CookiePath(env) in fs
    ensures RequestOf(prog, env, fs).sessionCookie == Session.TrimEnd(fs[Session.CookiePath(env)])
  {
    Generator.UrlRoundTrip(prog);
  }
}

=== FILE: generator.dfy ===
/** The `generate_day!` macro: it accepts a comma-separated list of integer
    literals, insists on exactly two that fit in `u32`, and stamps the first
    into `YEAR` and the second into `DAY` of the emitted program. The rest of
    the emitted program is fixed text and is modelled by the other modules. */
module Generator {
  import opened Results
  import Decimal

  const U32_MAX: nat := 0xFFFF_FFFF

  type U32 = n: nat | n <= U32_MAX

  /** The constants baked into one generated program. */
  datatype Program = Program(year: U32, day: U32)

  /** An integer literal as the macro receives it: an optional minus sign
      and the magnitude its digits denote. `-0` is negative with magnitude 0. */
  datatype Literal = Literal(negative: bool, magnitude: nat)

  /** Whether `base10_parse::<u32>` accepts the literal: unsigned parsing
      refuses any minus sign, `-0` included, and anything above `u32::MAX`. */
  predicate FitsU32(l: Literal) {
    !l.negative && l.magnitude <= U32_MAX
  }

  /** `base10_parse::<u32>` on every literal, in order; the first literal that
      does not fit aborts the expansion. */
  function ParseAll(literals: seq<Literal>): (r: Result<seq<U32>>)
    ensures r.Ok? <==> forall i :: 0 <= i < |literals| ==> FitsU32(literals[i])
    ensures r.Ok? ==> |r.value| == |literals|
    ensures r.Ok? ==> forall i :: 0 <= i < |literals| ==> r.value[i] == literals[i].magnitude
    ensures r.Fail? ==> r.error == NumberOutOfRange
  {
    if literals == [] then Ok([])
    else if !FitsU32(literals[0]) then Fail(NumberOutOfRange)
    else
      var rest :- ParseAll(literals[1..]);
      Ok([literals[0].magnitude as U32] + rest)
  }

  /** The macro's argument check. Every literal is parsed before the count is
      looked at, so a literal out of range wins over a wrong count. */
  function Generate(literals: seq<Literal>): (r: Result<Program>)
    ensures r.Ok? <==> |literals| == 2 && FitsU32(literals[0]) && FitsU32(literals[1])
    ensures r.Ok? ==> r.value.year == literals[0].magnitude && r.value.day == literals[1].magnitude
    ensures r.Fail? && (exists i :: 0 <= i < |literals| && !FitsU32(literals[i])) ==>
              r.error == NumberOutOfRange
    ensures r.Fail? && (forall i :: 0 <= i < |literals| ==> FitsU32(literals[i])) ==>
              r.error == WrongArgumentCount(|literals|)
  {
    var values :- ParseAll(literals);
    if |values| != 2 then Fail(WrongArgumentCount(|values|))
    else Ok(Program(values[0], values[1]))
  }

  const URL_PREFIX: string := "https://adventofcode.com/"
  const DAY_SEGMENT: string := "/day/"
  const URL_SUFFIX: string := "/input"

  /** The input address of the generated program's puzzle: after the host
      comes a run of digits that is the year's decimal text, and what follows
      it reads back as the day. */
  function Url(p: Program): (u: string)
    ensures URL_PREFIX <= u
    ensures DigitPrefix(u[|URL_PREFIX|..]) == Decimal.Show(p.year)
    ensures ParseDayPart(u[|URL_PREFIX| + |Decimal.Show(p.year)|..]) == Some(p.day as nat)
  {
    var y := Decimal.Show(p.year);
    var rest := DAY_SEGMENT + Decimal.Show(p.day) + URL_SUFFIX;
    var u := URL_PREFIX + (y + rest);
    assert u[|URL_PREFIX|..] == y + rest;
    assert u[|URL_PREFIX| + |y|..] == rest;
    DigitPrefixOfConcat(y, rest);
    DayPartRoundTrip(p.day);
    u
  }

  /** The longest prefix of `s` made of digits. */
  function DigitPrefix(s: string): (p: string)
    ensures p <= s && Decimal.AllDigits(p)
    ensures |p| < |s| ==> !Decimal.IsDigit(s[|p|])
  {
    if s != [] && Decimal.IsDigit(s[0]) then [s[0]] + DigitPrefix(s[1..]) else []
  }

  lemma DigitPrefixOfConcat(a: string, b: string)
    requires Decimal.AllDigits(a)
    requires b == [] || !Decimal.IsDigit(b[0])
    ensures DigitPrefix(a + b) == a
  {
    var p := DigitPrefix(a + b);
    assert |a| < |a + b| ==> (a + b)[|a|] == b[0];
    assert forall i :: 0 <= i < |a| ==> (a + b)[i] == a[i];
  }

  /** Recovers the day from the part of an address after the year. */
  function ParseDayPart(s: string): Option<nat> {
    if !(DAY_SEGMENT <= s) then None
    else
      var afterDay := s[|DAY_SEGMENT|..];
      var dayDigits := DigitPrefix(afterDay);
      if dayDigits == [] || afterDay[|dayDigits|..] != URL_SUFFIX then None
      else Some(Decimal.Value(dayDigits))
  }

  /** Recovers year and day from an input address, when it has the shape `Url` produces. */
  function ParseUrl(u: string): Option<(nat, nat)> {
    if !(URL_PREFIX <= u) then None
    else
      var afterHost := u[|URL_PREFIX|..];
      var yearDigits := DigitPrefix(afterHost);
      if yearDigits == [] then None
      else
        match ParseDayPart(afterHost[|yearDigits|..])
        case None => None
        case Some(day) => Some((Decimal.Value(yearDigits), day))
  }

  /** The part after the year carries the day recoverably. */
  lemma DayPartRoundTrip(day: nat)
    ensures ParseDayPart(DAY_SEGMENT + Decimal.Show(day) + URL_SUFFIX) == Some(day)
  {
    var d := Decimal.Show(day);
    var s := DAY_SEGMENT + d + URL_SUFFIX;
    assert DAY_SEGMENT <= s;
    var afterDay := s[|DAY_SEGMENT|..];
    assert afterDay == d + URL_SUFFIX;
    DigitPrefixOfConcat(d, URL_SUFFIX);
    assert afterDay[|d|..] == URL_SUFFIX;
    Decimal.ValueOfShow(day);
  }

  /** The address carries the year and the day, in that order, recoverably. */
  lemma UrlRoundTrip(p: Program)
    ensures ParseUrl(Url(p)) == Some((p.year as nat, p.day as nat))
  {
    var u := Url(p);
    assert u[|URL_PREFIX|..][|Decimal.Show(p.year)|..] == u[|URL_PREFIX| + |Decimal.Show(p.year)|..];
    Decimal.ValueOfShow(p.year);
  }

  /** Two programs fetch the same address only when they are for the same puzzle. */
  lemma UrlDeterminesPuzzle(p: Program, q: Program)
    requires Url(p) == Url(q)
    ensures p == q
  {
    UrlRoundTrip(p);
    UrlRoundTrip(q);
  }

  /** A successful expansion fetches the address of the year and day given, in that order. */
  lemma GeneratedUrl(year: nat, day: nat)
    requires year <= U32_MAX && day <= U32_MAX
    ensures Generate([Literal(false, year), Literal(false, day)]).Ok?
    ensures ParseUrl(Url(Generate([Literal(false, year), Literal(false, day)]).value)) == Some((year, day))
  {
    UrlRoundTrip(Generate([Literal(false, year), Literal(false, day)]).value);
  }

  /** A minus-signed zero is refused although its value fits. */
  lemma NegativeZeroRefused(day: nat)
    ensures Generate([Literal(true, 0), Literal(false, day)]) == Fail(NumberOutOfRange)
  {
  }
}

=== FILE: harness.dfy ===
/** `handle_day`: resolve the input, then read the mode, then parse the input
    once and run the selected solver; the solution is what gets printed.
    `parse`, `solve_part_one` and `solve_part_two` are the user's functions
    and enter as parameters. */
module Harness {
  import opened Results
  import opened Os
  import Generator
  import Download
  import Resolver
  import Mode

  /** One run: the printed solution or the fatal error that ended it, the
      filesystem afterwards and the number of requests issued. */
  datatype Run<S> = Run(printed: Result<S>, fs: Fs, fetches: nat)

  function HandleDay<P, S>(prog: Generator.Program, env: Env, fs: Fs, enabled: bool, fetch: Download.Fetcher,
                           parse: string -> P, solveOne: P -> S, solveTwo: P -> S): (run: Run<S>)
    // the side effects are the resolver's, whatever the mode turns out to be
    ensures var res := Resolver.DownloadOrReadInput(prog, env, fs, enabled, fetch);
            run.fs == res.fs && run.fetches == res.fetches
    // a resolver failure ends the run before the mode is read
    ensures var res := Resolver.DownloadOrReadInput(prog, env, fs, enabled, fetch);
            res.result.Fail? ==> run.printed == Fail(res.result.error)
    // with an input in hand, a bad mode ends the run with the mode's error
    ensures var res := Resolver.DownloadOrReadInput(prog, env, fs, enabled, fetch);
            res.result.Ok? && Mode.FromEnv(env).Fail? ==> run.printed == Fail(Mode.FromEnv(env).error)
    // otherwise the selected solver runs on the parse of exactly the resolved input
    ensures var res := Resolver.DownloadOrReadInput(prog, env, fs, enabled, fetch);
            run.printed.Ok? <==> res.result.Ok? && Mode.FromEnv(env).Ok?
    ensures var res := Resolver.DownloadOrReadInput(prog, env, fs, enabled, fetch);
            run.printed.Ok? && Mode.FromEnv(env).value == Mode.One ==> run.printed.value == solveOne(parse(res.result.value))
    ensures var res := Resolver.DownloadOrReadInput(prog, env, fs, enabled, fetch);
            run.printed.Ok? && Mode.FromEnv(env).value == Mode.Two ==> run.printed.value == solveTwo(parse(res.result.value))
  {
    var res := Resolver.DownloadOrReadInput(prog, env, fs, enabled, fetch);
    match res.result
    case Fail(e) => Run(Fail(e), res.fs, res.fetches)
    case Ok(input) =>
      match Mode.FromEnv(env)
      case Fail(e) => Run(Fail(e), res.fs, res.fetches)
      case Ok(part) =>
        var solution := match part
          case One => solveOne(parse(input))
          case Two => solveTwo(parse(input));
        Run(Ok(solution), res.fs, res.fetches)
  }

  /** The mode is read only after the input: with `part` missing or wrong, a
      cache miss has still issued its request and written the cache. */
  lemma LateModeCheck<P, S>(prog: Generator.Program, env: Env, fs: Fs, fetch: Download.Fetcher,
                            parse: string -> P, solveOne: P -> S, solveTwo: P -> S, text: string)
    requires Resolver.SelectedTier(env, fs) == Resolver.Remote
    requires Mode.FromEnv(env).Fail?
    requires Resolver.DownloadOrReadInput(prog, env, fs, true, fetch).result == Ok(text)
    ensures var run := HandleDay(prog, env, fs, true, fetch, parse, solveOne, solveTwo);
            && run.printed == Fail(Mode.FromEnv(env).error)
            && run.fetches == 1
            && run.fs == fs[Resolver.INPUT_FILE_PATH := text]
  {
  }

  /** No override, no cache and no download feature: the run fails with the
      disabled-download error, prints nothing, and leaves the filesystem alone. */
  lemma NothingToRead<P, S>(prog: Generator.Program, env: Env, fs: Fs, fetch: Download.Fetcher,
                            parse: string -> P, solveOne: P -> S, solveTwo: P -> S)
    requires Resolver.SelectedTier(env, fs) == Resolver.Remote
    ensures HandleDay(prog, env, fs, false, fetch, parse, solveOne, solveTwo) == Run(Fail(DownloadDisabled), fs, 0)
  {
  }

  /** An override with part1 runs the first solver on the override file's text,
      whether or not a cache exists, and fetches nothing. */
  lemma OverrideRun<P, S>(prog: Generator.Program, env: Env, fs: Fs, enabled: bool, fetch: Download.Fetcher,
                          parse: string -> P, solveOne: P -> S, solveTwo: P -> S)
    requires Resolver.TEST_FILE_VAR in env && env[Resolver.TEST_FILE_VAR] in fs
    requires Mode.PART_VAR in env && env[Mode.PART_VAR] == "part1"
    ensures HandleDay(prog, env, fs, enabled, fetch, parse, solveOne, solveTwo)
            == Run(Ok(solveOne(parse(fs[env[Resolver.TEST_FILE_VAR]]))), fs, 0)
  {
  }
}

=== FILE: mode.dfy ===
/** `Part::from_env`: the `part` environment variable selects which solver runs. */
module Mode {
  import opened Results
  import opened Os

  datatype Part = One | Two

  const PART_VAR: string := "part"

  /** The environment value that selects `p`. */
  function Name(p: Part): string {
    match p
    case One => "part1"
    case Two => "part2"
  }

  /** Reads `part`: unset is fatal, part1/part2 select a solver, any other
      value (the empty string included) is fatal and named in the error. */
  function FromEnv(env: Env): (r: Result<Part>)
    ensures r == Ok(One) <==> PART_VAR in env && env[PART_VAR] == "part1"
    ensures r == Ok(Two) <==> PART_VAR in env && env[PART_VAR] == "part2"
    ensures PART_VAR !in env <==> r == Fail(PartUnset)
    ensures PART_VAR in env && r.Fail? ==> r.error == UnexpectedPart(env[PART_VAR])
  {
    match Var(env, PART_VAR)
    case None => Fail(PartUnset)
    case Some(v) =>
      if v == "part1" then Ok(One)
      else if v == "part2" then Ok(Two)
      else Fail(UnexpectedPart(v))
  }

  /** Setting `part` to a mode's name selects that mode, whatever else is set. */
  lemma NameSelects(env: Env, p: Part)
    ensures FromEnv(env[PART_VAR := Name(p)]) == Ok(p)
  {
  }

  /** Exactly the two names are accepted, and the mode read back names the value. */
  lemma AcceptedValues(env: Env)
    ensures FromEnv(env).Ok? <==> PART_VAR in env && (env[PART_VAR] == Name(One) || env[PART_VAR] == Name(Two))
    ensures FromEnv(env).Ok? ==> Name(FromEnv(env).value) == env[PART_VAR]
  {
  }
}

=== FILE: os.dfy ===
/** The process environment and the filesystem, as plain maps.
    A path is present in `Fs` exactly when the file exists and reads as text. */
module Os {
  import opened Results

  type Env = map<string, string>
  type Fs = map<string, string>

  /** `env::var(name)`: the value when the variable is set. */
  function Var(env: Env, name: string): Option<string>
  {
    if name in env then Some(env[name]) else None
  }

  /** `fs::read_to_string(path)`, failing with `err` when the file is missing. */
  function ReadToString(fs: Fs, path: string, err: Fatal): Result<string>
  {
    if path in fs then Ok(fs[path]) else Fail(err)
  }
}

=== FILE: resolver.dfy ===
/** `download_or_read_input`: three tiers tried in a fixed order. A
    `test_file` override wins and must be readable; otherwise the cache file
    `./input.txt` is returned when it exists; otherwise the input is
    downloaded and written to the cache before it is returned. */
module Resolver {
  import opened Results
  import opened Os
  import Generator
  import Download
  import Session

  const TEST_FILE_VAR: string := "test_file"
  const INPUT_FILE_PATH: string := "./input.txt"

  /** The tier that supplies the input. */
  datatype Tier = Override | Cache | Remote

  /** Which tier the state selects: the tiers' precedence, stated on its own. */
  function SelectedTier(env: Env, fs: Fs): Tier {
    if TEST_FILE_VAR in env then Override
    else if INPUT_FILE_PATH in fs then Cache
    else Remote
  }

  /** The outcome of one resolution: the input or a fatal error, the
      filesystem afterwards, and the number of requests issued. */
  datatype Resolution = Resolution(result: Result<string>, fs: Fs, fetches: nat)

  function DownloadOrReadInput(prog: Generator.Program, env: Env, fs: Fs, enabled: bool, fetch: Download.Fetcher): (res: Resolution)
    ensures res.fetches <= 1
    ensures res.fetches == 1 ==> SelectedTier(env, fs) == Remote
    // on a cache miss, the outcome and the request count are the download's
    ensures SelectedTier(env, fs) == Remote ==>
              var attempt := Download.DownloadInputData(prog, env, fs, enabled, fetch);
              res.result == attempt.result && res.fetches == attempt.fetches
    ensures if SelectedTier(env, fs) == Remote && res.result.Ok?
            then res.fs == fs[INPUT_FILE_PATH := res.result.value]
            else res.fs == fs
  {
    match Var(env, TEST_FILE_VAR)
    case Some(path) =>
      Resolution(ReadToString(fs, path, TestFileUnreadable(path)), fs, 0)
    case None =>
      if INPUT_FILE_PATH in fs then Resolution(Ok(fs[INPUT_FILE_PATH]), fs, 0)
      else
        var attempt := Download.DownloadInputData(prog, env, fs, enabled, fetch);
        match attempt.result
        case Fail(e) => Resolution(Fail(e), fs, attempt.fetches)
        case Ok(data) => Resolution(Ok(data), fs[INPUT_FILE_PATH := data], attempt.fetches)
  }

  /** Override tier: the result is that file's text, or fatal if it cannot be
      read; the cache is neither read nor written and nothing is fetched. */
  lemma OverrideTier(prog: Generator.Program, env: Env, fs: Fs, enabled: bool, fetch: Download.Fetcher)
    requires TEST_FILE_VAR in env
    ensures var res := DownloadOrReadInput(prog, env, fs, enabled, fetch);
            && res.fs == fs && res.fetches == 0
            && (env[TEST_FILE_VAR] in fs ==> res.result == Ok(fs[env[TEST_FILE_VAR]]))
            && (env[TEST_FILE_VAR] !in fs ==> res.result == Fail(TestFileUnreadable(env[TEST_FILE_VAR])))
  {
  }

  /** The cache plays no part under an override naming a file other than
      `./input.txt`: adding, changing or removing `./input.txt` changes nothing
      about the resolution but the filesystem it returns. */
  lemma OverrideIgnoresCache(prog: Generator.Program, env: Env, fs: Fs, cache: Option<string>, enabled: bool, fetch: Download.Fetcher)
    requires TEST_FILE_VAR in env && env[TEST_FILE_VAR] != INPUT_FILE_PATH
    ensures var fs' := if cache.Some? then fs[INPUT_FILE_PATH := cache.value] else fs - {INPUT_FILE_PATH};
            var res, res' := DownloadOrReadInput(prog, env, fs, enabled, fetch), DownloadOrReadInput(prog, env, fs', enabled, fetch);
            res'.result == res.result && res'.fetches == res.fetches == 0 && res'.fs == fs'
  {
  }

  /** Cache hit: without an override an existing `./input.txt`, even an empty
      one, is the result; nothing is fetched and nothing is written. */
  lemma CacheHit(prog: Generator.Program, env: Env, fs: Fs, enabled: bool, fetch: Download.Fetcher)
    requires TEST_FILE_VAR !in env && INPUT_FILE_PATH in fs
    ensures DownloadOrReadInput(prog, env, fs, enabled, fetch) == Resolution(Ok(fs[INPUT_FILE_PATH]), fs, 0)
  {
  }

  /** Cache miss with the download feature: one request is issued, and when it
      yields text the cache then holds exactly that text, which is also returned. */
  lemma CacheMissDownloads(prog: Generator.Program, env: Env, fs: Fs, fetch: Download.Fetcher, text: string)
    requires SelectedTier(env, fs) == Remote
    requires Session.ReadSessionCookie(env, fs).Ok?
    requires fetch(Download.RequestOf(prog, env, fs)) == Download.Body(text)
    ensures DownloadOrReadInput(prog, env, fs, true, fetch) == Resolution(Ok(text), fs[INPUT_FILE_PATH := text], 1)
  {
  }

  /** A download is persisted: resolving again on the state it leaves returns
      the same text with no request, whatever the network would now answer. */
  lemma SecondResolutionUsesCache(prog: Generator.Program, env: Env, fs: Fs, enabled: bool, fetch: Download.Fetcher,
                                  enabled': bool, fetch': Download.Fetcher)
    requires TEST_FILE_VAR !in env
    requires DownloadOrReadInput(prog, env, fs, enabled, fetch).result.Ok?
    ensures var res := DownloadOrReadInput(prog, env, fs, enabled, fetch);
            DownloadOrReadInput(prog, env, res.fs, enabled', fetch') == Resolution(res.result, res.fs, 0)
  {
  }

  /** Cache miss with a failed download: the download's own error is fatal
      before the cache file is created, and a request was issued exactly
      when the credential could be read. */
  lemma CacheMissFails(prog: Generator.Program, env: Env, fs: Fs, enabled: bool, fetch: Download.Fetcher)
    requires SelectedTier(env, fs) == Remote
    requires Download.DownloadInputData(prog, env, fs, enabled, fetch).result.Fail?
    ensures var res := DownloadOrReadInput(prog, env, fs, enabled, fetch);
            && res.result == Download.DownloadInputData(prog, env, fs, enabled, fetch).result
            && res.fs == fs
            && (res.fetches == 1 <==> enabled && Session.ReadSessionCookie(env, fs).Ok?)
  {
  }

  /** Cache miss without the download feature: fatal before the cache file is
      created, so the filesystem is unchanged and nothing is fetched. */
  lemma CacheMissDisabled(prog: Generator.Program, env: Env, fs: Fs, fetch: Download.Fetcher)
    requires SelectedTier(env, fs) == Remote
    ensures DownloadOrReadInput(prog, env, fs, false, fetch) == Resolution(Fail(DownloadDisabled), fs, 0)
  {
  }

  /** A failed download leaves no cache file behind. */
  lemma FailedDownloadWritesNothing(prog: Generator.Program, env: Env, fs: Fs, enabled: bool, fetch: Download.Fetcher)
    requires SelectedTier(env, fs) == Remote
    requires DownloadOrReadInput(prog, env, fs, enabled, fetch).result.Fail?
    ensures DownloadOrReadInput(prog, env, fs, enabled, fetch).fs == fs
    ensures INPUT_FILE_PATH !in DownloadOrReadInput(prog, env, fs, enabled, fetch).fs
  {
  }
}

=== FILE: results.dfy ===
/** Failure values of the generated day harness and the failure-compatible
    wrappers every component returns. Each `Fatal` stands for a `panic!` or
    `expect` site that the model can reach; the process ends there. The
    file paths carried by two of them and the count carried by
    `WrongArgumentCount` are this model's addition. */
module Results {

  /** One constructor per reachable fatal site of the generator and of the
      emitted program. Sites the model cannot reach have none: the two
      `expect`s after the count check, reading an existing `./input.txt`,
      and creating or writing it. */
  datatype Fatal =
    // generation time
    | NumberOutOfRange                    // a literal does not fit in `u32`
    | WrongArgumentCount(count: nat)      // not exactly two literals
    // run time
    | PartUnset                           // `part` is not in the environment
    | UnexpectedPart(value: string)       // `part` holds something else than part1/part2
    | TestFileUnreadable(path: string)    // `test_file` names a file that cannot be read
                                          // (the path is the model's; the message names an io error)
    | SessionCookieUnreadable(path: string)
    | DownloadDisabled                    // built without the `download_input` feature
    | RetrieveFailed                      // the GET request could not be sent / completed
    | ResponseUnreadable                  // the response body is not text

  datatype Option<+T> = None | Some(value: T)

  datatype Result<+T> = Ok(value: T) | Fail(error: Fatal) {

    predicate IsFailure() {
      Fail?
    }

    function PropagateFailure<U>(): Result<U>
      requires Fail?
    {
      Fail(error)
    }

    function Extract(): T
      requires Ok?
    {
      value
    }
  }
}

=== FILE: session.dfy ===
/** `read_session_cookie`: the credential for the download, read from the file
    `SESSION_COOKIE_FILEPATH` names (or a fixed default) with trailing
    whitespace removed. */
module Session {
  import opened Results
  import opened Os

  const SESSION_COOKIE_VAR: string := "SESSION_COOKIE_FILEPATH"
  const SESSION_COOKIE_FILE: string := "/home/vidde/.aoc_session_cookie"

  /** Rust's `char::is_whitespace`: the Unicode White_Space property. */
  predicate IsWhitespace(c: char) {
    var u := c as int;
    (0x09 <= u <= 0x0D) || u == 0x20 || u == 0x85 || u == 0xA0 || u == 0x1680
    || (0x2000 <= u <= 0x200A) || u == 0x2028 || u == 0x2029 || u == 0x202F
    || u == 0x205F || u == 0x3000
  }

  predicate AllWhitespace(s: string) {
    forall i :: 0 <= i < |s| ==> IsWhitespace(s[i])
  }

  /** `str::trim_end`: `s` without its trailing whitespace. The result is a
      prefix of `s` that does not end in whitespace, and only whitespace was cut. */
  function TrimEnd(s: string): (r: string)
    ensures r <= s
    ensures r == [] || !IsWhitespace(r[|r| - 1])
    ensures AllWhitespace(s[|r|..])
  {
    if s != [] && IsWhitespace(s[|s| - 1]) then
      var t := s[..|s| - 1];
      assert s[|TrimEnd(t)|..] == t[|TrimEnd(t)|..] + [s[|s| - 1]];
      TrimEnd(t)
    else s
  }

  /** The three properties of `TrimEnd` pin its result down: any prefix that
      does not end in whitespace and leaves only whitespace behind is it. */
  lemma TrimEndUnique(s: string, t: string)
    requires t <= s
    requires t == [] || !IsWhitespace(t[|t| - 1])
    requires AllWhitespace(s[|t|..])
    ensures t == TrimEnd(s)
  {
  }

  /** Trimming twice is trimming once. */
  lemma TrimEndIdempotent(s: string)
    ensures TrimEnd(TrimEnd(s)) == TrimEnd(s)
  {
  }

  /** Text followed only by a line end comes back without the line end. */
  lemma TrimEndDropsNewline(s: string)
    requires s == [] || !IsWhitespace(s[|s| - 1])
    ensures TrimEnd(s + "\n") == s
  {
  }

  /** The file the credential is read from. */
  function CookiePath(env: Env): (path: string)
    ensures SESSION_COOKIE_VAR in env ==> path == env[SESSION_COOKIE_VAR]
    ensures SESSION_COOKIE_VAR !in env ==> path == SESSION_COOKIE_FILE
  {
    match Var(env, SESSION_COOKIE_VAR)
    case Some(fp) => fp
    case None => SESSION_COOKIE_FILE
  }

  /** Reads the credential from `CookiePath(env)`; a missing file is fatal.
      The path carried by the error is this model's addition: the source's
      message does not name it. */
  function ReadSessionCookie(env: Env, fs: Fs): (r: Result<string>)
    ensures r.Ok? <==> CookiePath(env) in fs
    ensures r.Ok? ==> r.value <= fs[CookiePath(env)]
    ensures r.Ok? ==> r.value == [] || !IsWhitespace(r.value[|r.value| - 1])
    ensures r.Ok? ==> AllWhitespace(fs[CookiePath(env)][|r.value|..])
    ensures r.Fail? ==> r.error == SessionCookieUnreadable(CookiePath(env))
  {
    var path := CookiePath(env);
    var contents :- ReadToString(fs, path, SessionCookieUnreadable(path));
    Ok(TrimEnd(contents))
  }
}
